=== FILE: README.md ===
# vpilot-remote-ptt in Dafny

A model of the push-to-talk (PTT) core of `vpilot-remote-ptt`. Remote
browsers connect over a WebSocket and ask the host to hold or release one key
(the PTT key of the vPilot client). The host keeps one shared boolean,
`_ptt_state`, and the set of connected clients. It presses or releases the key
only when that boolean actually changes, and it tells every client about
each change. Beside the server, the model covers the pure decision rules of
the interactive setup wizard in `setup.py`.

Modules, one per file:

- `wrappers.dfy`, module `Wrappers`: `Option` and `Result`.
- `text.dfy`, module `Text`: the Python string operations the code relies on.
  - `str.strip()` uses Python's full whitespace set.
  - `str.lower()` and `str.isalpha()` are restricted to ASCII.
  - `str.replace` is modelled for one character.
  - `str(int)` and base-10 `int(str)` are modelled, including a sign and `_` digit separators.
- `keys.dfy`, module `Keys`: `_resolve_key`. The table of named keys is a parameter: the set of its lower-case names.
- `config.dfy`, module `Config`: `load_config`, given what reading and parsing `config.json` produced.
- `protocol.dfy`, module `Protocol`: the WebSocket messages.
  - A client message is classified into a closed `Request` type.
  - The server's `{"status": ...}` payloads are modelled.
- `server.dfy`, module `PttServer`: the control plane as a pure transition system.
  - A `Server` record holds `_ptt_state`, `_clients`, and whether the event loop runs.
  - It also keeps three logs: actuator calls, deliveries to clients, and GUI callbacks.
  - Events: the loop starting, a connection, a message, a disconnection, `simulate_ptt(on)` and `stop_server()`.
  - `Step` applies one event and `Run` folds a sequence of events.
- `server_props.dfy`, module `PttProperties`: invariants and scenarios of the control plane.
- `keygrid.dfy`, module `KeyGrid`: the column-major index layout of `_print_supported_keys`.
- `wizard.dfy`, module `Wizard`: the setup wizard's decision rules.
  - `_c`, `prompt` and `confirm`.
  - Key choice in `configure_ptt_key`, including the custom-key question.
  - Port acceptance in `configure_ports`.
  - Lines typed by the user are passed in as a sequence of strings.

Four behaviours of the code that a reader might not expect, each pinned by a
member:

- A client message that is valid JSON but not an object (`[]`, `5`, `"x"`, `null`) ends its connection.
  - `message.get` raises, the generic handler catches it, and `finally` runs as for a disconnect (remote_vatsim.py:208, 234-249; `PttProperties.NonObjectEndsSession`).
  - So does a frame `json.loads` fails on other than by `JSONDecodeError`, the only parse error caught on the spot (remote_vatsim.py:203-206).
- A client whose send fails stays registered: `_broadcast` swallows per-client failures and never touches `_clients` (remote_vatsim.py:176-179; `PttServer.Broadcast`).
- When the client holding the key leaves while others remain, the key stays held and nobody is told (remote_vatsim.py:243-249; `PttProperties.DepartureWithOthersKeepsState`).
- The release when the last client leaves is not broadcast (remote_vatsim.py:243-249).
  - Neither is the release in `stop_server` (remote_vatsim.py:426-432; `PttProperties.StopResets`).

## Model

| member | source | states |
|---|---|---|
| Text.Strip | remote_vatsim.py:94 | `str.strip()`: the result neither starts nor ends with whitespace. It is a slice of the input, and everything cut off on either side is whitespace. |
| Text.StripIdempotent | setup.py:85-86 | Stripping an already stripped line changes nothing, so the text `prompt` returns is stable. |
| Text.LowerStripCommute | setup.py:457 | `s.strip().lower()` (the server, `confirm`) equals `s.lower().strip()` (the key-choice rules). |
| Text.ReplaceChar | remote_vatsim.py:105 | `replace(" ", "_")` keeps the length and changes exactly the spaces. |
| Text.Lower | remote_vatsim.py:94 | `str.lower()` on ASCII: the same length, each `A`-`Z` lowered, every other character kept; whitespace, digits and letters stay what they were. |
| Text.IntToString | setup.py:85-86 | `str(default)`: the canonical numeral, `-` exactly for a negative number, then digits with no leading zero, whose decimal value is the magnitude; `ParseIntOfIntToString` reads it back. |
| Text.ParseInt | setup.py:498 | `int()` on text already passed through `str.strip()`, as at every call site: it succeeds exactly on a digit run (digits with single `_` between digits), optionally after `+` or `-`. The value is the run's decimal value (`DigitsValue`, underscores skipped), negated after `-`. |
| Text.ParseExamples | setup.py:498 | `int("0080")` is 80, `int("+80")` is 80 and `int("8_080")` is 8080; `"8__080"` and `"_80"` are refused. |
| Text.ParseIntOfIntToString | setup.py:496-498 | `int(str(i)) == i` for every integer: a printed default reads back as itself. The model has no digit limit (see "Left out"). |
| Keys.ResolveKey | remote_vatsim.py:87-113 | Resolution order, as an if-and-only-if. A named key wins. A special result comes from the table, reached from the normalised name or its underscore form. A character result is exactly the one normalised character. The error occurs exactly when no rule applies, quotes the input and lists the table. |
| Keys.ResolveKeyInsensitive | remote_vatsim.py:94-107 | Names that agree after strip and lower-case resolve to the same key, and fail together. |
| Keys.ResolveMixedCase | remote_vatsim.py:94-98 | `"Caps_Lock"` resolves to the named key `caps_lock`. |
| Keys.ResolveUnknown | remote_vatsim.py:109-113 | An unknown two-letter name raises the error listing the valid names. |
| Keys.SpacedNameResolves | remote_vatsim.py:104-107 | A name with spaces resolves to the named key of its underscore form. This holds when the name is neither a named key nor one character. |
| Config.Merge | remote_vatsim.py:57-61 | `dict.update` on a copy of the defaults. Every user key overrides, every other default is kept, and no other key appears. |
| Config.LoadConfig | remote_vatsim.py:55-67 | A missing file or invalid JSON gives exactly `DEFAULT_CONFIG`. A JSON object overrides key by key. Any other read error escapes as an exception; every non-object document is also treated as one (see "Left out"). |
| Config.LoadedConfigHasAllKeys | remote_vatsim.py:44-67 | Every configuration that loads has `ptt_key`, `http_port` and `ws_port`. |
| Config.EmptyObjectIsDefaults | remote_vatsim.py:57-66 | An empty user object loads the same configuration as a missing file. |
| Protocol.Decode | remote_vatsim.py:201-236 | Each message class, as an if-and-only-if. `ptt`/`on` turns on and `ptt`/`off` turns off. Text `json.loads` rejects with `JSONDecodeError`, another action, or another or missing state is ignored. A non-object, or a frame `json.loads` fails on with any other exception, ends the handler. |
| Protocol.DecodePttRequest | remote_vatsim.py:211-220 | The request a client sends for on or off decodes to that request. |
| Protocol.Payload | remote_vatsim.py:195 | `json.dumps({"status": name})` is exactly `{"status": "`, the status name, and `"}`. |
| Protocol.StatusOf | remote_vatsim.py:195-199 | A client reads a notice by checking that head and tail and looking up the name between them. Whatever it accepts is exactly the payload of the status it returns. |
| Protocol.PayloadRoundTrip | remote_vatsim.py:195-199 | Each status payload reads back as its own status through that independent reader, so `connected`, `ptt_on` and `ptt_off` are distinguishable. |
| PttServer.Broadcast | remote_vatsim.py:170-179 | No clients means nothing is sent. Otherwise one delivery of the status goes to the whole current set. The client set and all other state are untouched. |
| PttServer.GetPttState | remote_vatsim.py:155-157 | `get_ptt_state()` reports whether the key is held; with `PttProperties.PttStateMatchesKey`, true exactly when the last actuator call was a press. |
| PttServer.GetClientCount | remote_vatsim.py:160-162 | `get_client_count()` is zero exactly when no client is registered. |
| PttServer.Transition | remote_vatsim.py:211-228 | The gated transition. An unchanged state leaves everything as it was. A change makes exactly one actuator call in the new direction, fires one GUI callback and, when announced, broadcasts the new state. |
| PttServer.Greet | remote_vatsim.py:186-199 | A connection registers the client and reports the new count. It sends `connected`, then `ptt_on` exactly when transmitting. |
| PttServer.Leave | remote_vatsim.py:236-249 | A departure discards the client and reports the count. It releases the key (once, unbroadcast) exactly when transmitting and nobody remains. |
| PttServer.Step | remote_vatsim.py:182-249 | On every event, the actuator is called exactly when the state changes, in the new direction. Apart from a greeting, something is sent only on a change, and then one broadcast of the new state. |
| PttServer.Run | remote_vatsim.py:182-314 | The server after a sequence of events, one step each. The actuator, sent and callback logs only grow. |
| PttProperties.StepPreservesBalance | remote_vatsim.py:211-226 | Every event keeps the actuator log alternating press/release, ending on a press exactly while transmitting. |
| PttProperties.RunPreservesBalance | remote_vatsim.py:290-314 | The same for any sequence of events, local injections included. |
| PttProperties.PressReleaseBalance | remote_vatsim.py:212-249 | From the initial state, after any events, `#press - #release` is 1 while transmitting and 0 otherwise. |
| PttProperties.PttStateMatchesKey | remote_vatsim.py:155-157 | After any events from start, `get_ptt_state()` is true exactly when the last actuator call was a press. |
| PttProperties.ClientCallbackReportsCount | remote_vatsim.py:186-241 | A connection or departure fires `on_client_change` with the count `get_client_count()` returns afterwards. |
| PttProperties.TurnOnWhileIdle | remote_vatsim.py:212-218 | "on" while off: state true, one press, one callback, and `ptt_on` to every registered client (nothing if none). |
| PttProperties.TurnOffWhileTransmitting | remote_vatsim.py:220-226 | "off" while on: state false, one release, one callback, and `ptt_off` to every registered client. |
| PttProperties.DuplicateRequestIsNoOp | remote_vatsim.py:227-228 | "on" while on or "off" while off changes nothing at all. |
| PttProperties.IgnoredMessagesChangeNothing | remote_vatsim.py:201-230 | Text rejected with `JSONDecodeError`, another action, or a `ptt` action with a missing or other state leaves the whole server unchanged, the client still registered. |
| PttProperties.NonObjectEndsSession | remote_vatsim.py:201-249 | A parsed non-object message, or a frame `json.loads` fails on other than by `JSONDecodeError`, has exactly the effect of a disconnect, and the client is no longer registered. |
| PttProperties.LocalSetGating | remote_vatsim.py:298-314 | `simulate_ptt` applies the same gating. It broadcasts a change only while the event loop runs. |
| PttProperties.LocalMatchesRemote | remote_vatsim.py:290-314 | While the loop runs, a local request and the same request from a client lead to the same state. |
| PttProperties.ConnectGreets | remote_vatsim.py:186-199 | After a connect the client is counted. It is sent `connected` first, and `ptt_on` next if and only if transmitting. |
| PttProperties.LastDepartureReleases | remote_vatsim.py:243-249 | The last client leaving while transmitting forces exactly one release and sends nothing. |
| PttProperties.DepartureWithOthersKeepsState | remote_vatsim.py:236-249 | A departure with other clients left keeps the state, the actuator log and the sent log. |
| PttProperties.UnknownDeparture | remote_vatsim.py:237 | Discarding an unregistered client leaves the set as it is. |
| PttProperties.DeparturesWhileIdle | remote_vatsim.py:236-249 | Any departures while idle never call the actuator or send anything, and remove exactly the departed clients. |
| PttProperties.AllDepartReleasesOnce | remote_vatsim.py:236-249 | All clients leaving while transmitting, in any order and with repeats, ends idle and empty. It releases exactly once and broadcasts nothing. |
| PttProperties.StopResets | remote_vatsim.py:426-463 | After `stop_server` the key is up and no client is registered. It releases only if the key was held, and sends nothing. |
| PttProperties.StopIdempotent | remote_vatsim.py:426-432 | A second `stop_server` changes nothing more. |
| PttProperties.LocalOnThenLateJoiner | remote_vatsim.py:298-305 | A local "on" with nobody connected presses once and sends nothing. A client joining afterwards gets `connected`, then `ptt_on`. |
| PttProperties.RequestsCollapse | remote_vatsim.py:211-228 | After any run of on/off requests the state is the last one asked for. The actuator ran once per actual change. |
| PttProperties.RepeatedRequestsScenario | remote_vatsim.py:211-228 | on, on, off, off, on from idle ends transmitting after exactly three actuator calls. |
| KeyGrid.RowCount | setup.py:474 | `rows == ceil(n / 4)`: `rows` lines of four hold all `n` keys, one line fewer would not, and no keys means no lines. |
| KeyGrid.Layout | setup.py:475-481 | The indices `_print_supported_keys` prints, line by line; every one is below `n` (each exactly once, by `LayoutPrintsEachIndexOnce`). |
| KeyGrid.CountRowCells | setup.py:477-480 | One printed line holds index `i` once if `i` is below `n` and lies on that line, and otherwise not at all. |
| KeyGrid.CountLinesFrom | setup.py:475-481 | The lines from `r0` on hold index `i` once exactly when it lies on one of them. |
| KeyGrid.LayoutPrintsEachIndexOnce | setup.py:470-481 | Every index below `n` is printed exactly once, and no other index is printed. |
| KeyGrid.LayoutPosition | setup.py:475-479 | Index `i` is printed on line `r` in column `c` with `i == r + c * rows`, `r < rows` and `c < 4`. |
| Wizard.Paint | setup.py:40-43 | `_c`: the identity without colour. Otherwise the text sits between `ESC[code m` and `ESC[0m`. |
| Wizard.PaintRoundTrip | setup.py:42 | The wrapped text can be recovered by removing the two sequences. |
| Wizard.Prompt | setup.py:82-87 | With a default, a blank line gives the default. Otherwise the result is the stripped line. |
| Wizard.PromptIsStripped | setup.py:85-87 | A prompt's answer carries no surrounding whitespace unless its default does. |
| Wizard.Confirm | setup.py:89-95 | A blank answer gives the default. Otherwise the answer means yes exactly when its lower-cased stripped form is `y` or `yes`. |
| Wizard.ConfirmInsensitive | setup.py:92-95 | Answers equal up to case and surrounding whitespace confirm alike. A non-blank answer decides whatever the default. |
| Wizard.SupportedKeysStartWithLetter | setup.py:375-413 | Every supported key name starts with a letter. |
| Wizard.AcceptKeyName | setup.py:457-463 | A typed name is accepted exactly when its lowered stripped form is a supported key or one letter, and that form is returned. |
| Wizard.ChooseKey | setup.py:432-463 | Menu numbers 1..5 pick the listed key, 6 asks for a custom name, and anything else goes through the typed-name rule. Every pick is a valid key. |
| Wizard.RoundAt | setup.py:428-467 | One round of the loop: a menu pick or accepted typed name settles; the custom option settles on an accepted custom name, asks again after a refused one, and is unfinished when no line follows; anything else asks again. |
| Wizard.NumberOutsideMenuRejected | setup.py:433-465 | A number outside 1..6 (such as "0" or "7") is never accepted as a key name and is asked again. |
| Wizard.FollowRounds | setup.py:428-467 | `while True` over rounds that always move forward: it stops at the first round that settles or is unfinished, or at the end of the lines, and every round it passed was asked again. |
| Wizard.KeyDialog | setup.py:428-467 | The loop over typed lines. It returns the first line of every round it went through: every round before the last was asked again, and the last round either settled on the returned key (always a supported key or a single letter) or ran out of input. |
| Wizard.EnterPicksCapsLock | setup.py:429-437 | Pressing Enter at the first question settles the first round on `caps_lock`. |
| Wizard.PortAnswerIsIntOfPrompt | setup.py:496-498 | The number read is `int(prompt(msg, default=port))`: a blank line gives the default port. |
| Wizard.CheckHttpPort | setup.py:496-505 | An HTTP answer is accepted exactly when it is a number in 1024..65535. Otherwise it is refused as not a number or out of range. |
| Wizard.CheckWsPort | setup.py:508-520 | A WebSocket answer is accepted exactly when it is a number in 1024..65535 different from the HTTP port. Otherwise it is refused with the matching reason. |
| Wizard.BlankAnswersTakeDefaults | setup.py:496-519 | Blank answers accept 8080 and 8765. A blank WebSocket answer is refused when the HTTP port is 8765. |
| Wizard.FirstAccepted | setup.py:495-505 | Each port loop stops at the first accepted answer, and every answer before it was refused. |
| Wizard.ConfigurePorts | setup.py:495-530 | Accepted ports lie in 1024..65535 and differ. The HTTP port is the first accepted HTTP answer, and the WebSocket port the first accepted WebSocket answer after it. Without both, the input ran out while every later answer was refused. |

## Left out

- Networking, threads and the asyncio event loop are not modelled. This includes the `run_coroutine_threadsafe` handoff, the HTTP static-file server and its `/` redirect, binding, and join timeouts. Each event is one atomic step of the transition system; whether the loop runs is a flag set by a start event.
- PttProperties.PressReleaseBalance: holds only under the atomic-step assumption. `simulate_ptt` (remote_vatsim.py:298-314) reads and writes `_ptt_state` and calls `_press_key`/`_release_key` on the caller's thread; gui.py:355 and 359 call it from the Tk thread. `_handle_client` does the same check-then-set on the event-loop thread (remote_vatsim.py:212-214, 220-222). If the two interleave, the key can be pressed twice in a row, which the model does not cover.
- The `Stop` step clears the client set without recording any `on_client_change` callback. In `stop_server`, closing the WebSocket server (remote_vatsim.py:441-451) ends every handler, and each handler's `finally` (remote_vatsim.py:237-241) fires `on_client_change` with the shrinking count. Those callbacks, and the order in which the handlers finish, are not modelled.
- `start_server` is not modelled: loading the configuration, resolving the key and starting the two servers in order are I/O. The redirect string is not modelled either.
- Key simulation through pynput is not modelled, nor is building the named-key table from `dir(Key)`. The actuator is a log of press/release calls, because `_press_key` and `_release_key` swallow their own failures. The table is a parameter of `Keys.ResolveKey`.
- Every GUI callback a step fires is recorded in a log, as if a callback were always registered. The case where none is registered is not modelled, because then the call is simply skipped. The callbacks fired while `stop_server` shuts the handlers down are not recorded (see the `Stop` line above).
- The order between a broadcast and a callback in the same step is not recorded, because they go to different logs.
- A broadcast is one delivery of one status to the whole client set. The JSON text is fixed by `Protocol.Payload`. Concurrency between the individual sends is not modelled.
- Failures while greeting a client or reading from it are not modelled. Such a failure ends the handler and is modelled as a disconnect event.
- JSON parsing is not modelled. Client messages arrive classified (`Protocol.Wire`): text rejected with `JSONDecodeError` (`JsonDecodeError`), a frame `json.loads` fails on with any other exception such as `UnicodeDecodeError` on a binary frame or `RecursionError` on deep nesting (`LoadFailure`, which ends the handler like a disconnect), a non-object value, or an object. `config.json` arrives as a parse outcome: an object, another value, missing, invalid, or another read error.
- Config.LoadConfig: treats every non-object document as an exception. In Python, `dict.update` also accepts some of them without error: a JSON list whose elements are two-element lists or two-character strings (the empty list included) updates key by key, and the empty string `""` updates nothing, so it loads the defaults.
- Text.ParseInt: has no digit limit. Python 3.11 and later (and the security releases of 3.7 to 3.10) refuse `int()` on text of more than 4300 digits, leading zeros included, and `str()` of such a number. The model judges an over-long answer by its value instead. An answer of more than 4300 digits whose value is out of range is refused by `Wizard.CheckHttpPort` as out of range rather than as not a number. One with leading zeros whose value is in range (4297 zeros then `8080`) is accepted as a port, and one that reads as a menu number (4300 zeros then `1`) picks that menu entry in `Wizard.ChooseKey`; Python refuses both as not a number. `Text.ParseIntOfIntToString` holds there only up to 4300 digits.
- Text.ParseInt: strips with the full `str.isspace` set. `int()` itself skips a smaller set: on ASCII only space, tab, newline, vertical tab, form feed and carriage return, so the separators U+001C to U+001F around a number make `int()` raise. No call site is affected, because `prompt` has already applied `str.strip()` to the text `int()` receives (setup.py:82-87, 433, 498, 510).
- `Text.ParseInt` covers ASCII decimal digits only. Python's `int()` also accepts other Unicode decimal digits. `str.lower()` and `str.isalpha()` are modelled on ASCII letters only.
- `_print_supported_keys` is modelled only for which index goes on which line and column. The sorting of the key names and the padding and colour of the printed text are not modelled.
- The wizard's printing, `_supports_color`, subprocesses, VB-Cable probing, port-in-use probing, LAN-IP detection and writing `config.json` are not modelled. They are I/O and OS calls. `Wizard.ConfigurePorts` returns the accepted ports without the availability warning.
- gui.py is not part of this model.

=== FILE: config.dfy ===
/**
 `load_config`: the built-in defaults, overridden key by key from the user's
 `config.json`. Reading and JSON parsing are outside the model: the function
 receives what the attempt to read the file produced.
 */
module Config {
  import opened Wrappers

  /** A JSON value as far as the configuration cares about it. */
  datatype Value = Str(s: string) | Int(i: int) | OtherValue

  /** The configuration dictionary. */
  type Settings = map<string, Value>

  /** The parsed document: a JSON object, or any other JSON value. */
  datatype Document = Object(entries: Settings) | NotAnObject

  /** What opening and parsing `config.json` produced. */
  datatype FileOutcome =
    | Parsed(doc: Document)
    | FileMissing     // FileNotFoundError
    | InvalidJson     // json.JSONDecodeError
    | ReadFailure     // any other error raised while reading (permissions, encoding)

  /** The exceptions `load_config` lets escape. */
  datatype LoadError = CannotRead | CannotMerge

  const DefaultConfig: Settings := map[
    "ptt_key" := Str("caps_lock"),
    "http_port" := Int(8080),
    "ws_port" := Int(8765)
  ]

  /** `dict.update`: every user key overrides, every other default stays. */
  function Merge(defaults: Settings, user: Settings): (r: Settings)
    ensures r.Keys == defaults.Keys + user.Keys
    ensures forall k :: k in user ==> r[k] == user[k]
    ensures forall k :: k in defaults && k !in user ==> r[k] == defaults[k]
  {
    defaults + user
  }

  function LoadConfig(outcome: FileOutcome): (r: Result<Settings, LoadError>)
    // a missing or unparsable file falls back to exactly the defaults
    ensures outcome == FileMissing || outcome == InvalidJson ==> r == Ok(DefaultConfig)
    // a JSON object overrides the defaults it names and keeps the others
    ensures outcome.Parsed? && outcome.doc.Object? ==>
              && r.Ok?
              && r.value.Keys == DefaultConfig.Keys + outcome.doc.entries.Keys
              && (forall k :: k in outcome.doc.entries ==> r.value[k] == outcome.doc.entries[k])
              && (forall k :: k in DefaultConfig && k !in outcome.doc.entries ==> r.value[k] == DefaultConfig[k])
    // any other outcome is an exception the caller sees
    ensures r.Err? <==> outcome == ReadFailure || outcome == Parsed(NotAnObject)
  {
    match outcome
    case FileMissing => Ok(DefaultConfig)
    case InvalidJson => Ok(DefaultConfig)
    case ReadFailure => Err(CannotRead)
    case Parsed(NotAnObject) => Err(CannotMerge)
    case Parsed(Object(user)) => Ok(Merge(DefaultConfig, user))
  }

  /** Loading never loses a configuration key: whatever loads successfully
      still has the three settings the server reads. */
  lemma LoadedConfigHasAllKeys(outcome: FileOutcome)
    requires LoadConfig(outcome).Ok?
    ensures "ptt_key" in LoadConfig(outcome).value
    ensures "http_port" in LoadConfig(outcome).value
    ensures "ws_port" in LoadConfig(outcome).value
  {
  }

  /** An empty user object and a file that is not there load the same thing. */
  lemma EmptyObjectIsDefaults()
    ensures LoadConfig(Parsed(Object(map[]))) == LoadConfig(FileMissing)
  {
    assert Merge(DefaultConfig, map[]) == DefaultConfig;
  }

}

=== FILE: keygrid.dfy ===
/**
 The column-major layout `_print_supported_keys` uses to list the sorted key
 names: `rows = ceil(n / 4)` printed lines, line `r` holding the indices
 `r + c * rows` for the columns `c = 0..3` whose index is below `n`.
 */
module KeyGrid {

  const Columns: nat := 4

  /** `(n + cols - 1) // cols`, the number of printed lines. */
  function RowCount(n: nat): (rows: nat)
    ensures rows * Columns >= n
    ensures n > 0 ==> (rows - 1) * Columns < n
    ensures n == 0 ==> rows == 0
  {
    (n + Columns - 1) / Columns
  }

  /** `c * rows`, the index of the first key in column `c`. It is written as
      repeated addition so that the proofs below can walk the grid one column
      at a time by induction; `OffsetIsProduct` ties it to the product the
      printing loop computes. */
  function Offset(c: nat, rows: nat): nat {
    if c == 0 then 0 else rows + Offset(c - 1, rows)
  }

  lemma {:induction false} OffsetIsProduct(c: nat, rows: nat)
    ensures Offset(c, rows) == c * rows
  {
    if c > 0 {
      OffsetIsProduct(c - 1, rows);
    }
  }

  /** The indices printed on line `r`, from column `c` rightwards. */
  function RowCells(r: nat, rows: nat, n: nat, c: nat): (cells: seq<nat>)
    ensures forall k :: 0 <= k < |cells| ==> cells[k] < n
    decreases Columns - c
  {
    if c >= Columns then []
    else
      var idx := r + Offset(c, rows);
      (if idx < n then [idx] else []) + RowCells(r, rows, n, c + 1)
  }

  /** The indices printed on lines `r..rows-1`, in printing order. */
  function LinesFrom(r: nat, rows: nat, n: nat): (cells: seq<nat>)
    ensures forall k :: 0 <= k < |cells| ==> cells[k] < n
    decreases rows - r
  {
    if r >= rows then [] else RowCells(r, rows, n, 0) + LinesFrom(r + 1, rows, n)
  }

  /** Every index `_print_supported_keys` prints for `n` keys, in order. */
  function Layout(n: nat): (cells: seq<nat>)
    ensures forall k :: 0 <= k < |cells| ==> cells[k] < n
  {
    LinesFrom(0, RowCount(n), n)
  }

  /** Occurrences of `x` in `s`. */
  function Count(s: seq<nat>, x: nat): nat
    decreases |s|
  {
    if |s| == 0 then 0 else (if s[0] == x then 1 else 0) + Count(s[1..], x)
  }

  lemma {:induction false} CountAppend(a: seq<nat>, b: seq<nat>, x: nat)
    ensures Count(a + b, x) == Count(a, x) + Count(b, x)
    decreases |a|
  {
    if |a| > 0 {
      assert (a + b)[0] == a[0];
      assert (a + b)[1..] == a[1..] + b;
      CountAppend(a[1..], b, x);
    } else {
      assert a + b == b;
    }
  }

  /** The column holding index `i` when columns are `rows` long. */
  function ColumnOf(i: nat, rows: nat): nat
    requires rows > 0
    decreases i
  {
    if i < rows then 0 else 1 + ColumnOf(i - rows, rows)
  }

  /** The line holding index `i` when columns are `rows` long. */
  function LineOf(i: nat, rows: nat): nat
    requires rows > 0
    decreases i
  {
    if i < rows then i else LineOf(i - rows, rows)
  }

  /** Every index sits on one line and in one column. */
  lemma {:induction false} Position(i: nat, rows: nat)
    requires rows > 0
    ensures LineOf(i, rows) < rows
    ensures i == LineOf(i, rows) + Offset(ColumnOf(i, rows), rows)
    decreases i
  {
    if i >= rows {
      Position(i - rows, rows);
    }
  }

  /** ... and no other line and column reach it. */
  lemma {:induction false} PositionUnique(r: nat, c: nat, rows: nat)
    requires r < rows
    ensures LineOf(r + Offset(c, rows), rows) == r
    ensures ColumnOf(r + Offset(c, rows), rows) == c
  {
    if c > 0 {
      PositionUnique(r, c - 1, rows);
    }
  }

  /** An index below `k` full columns lies in one of them. */
  lemma {:induction false} ColumnBound(i: nat, rows: nat, k: nat)
    requires rows > 0 && i < Offset(k, rows)
    ensures ColumnOf(i, rows) < k
    decreases i
  {
    if i >= rows {
      ColumnBound(i - rows, rows, k - 1);
    }
  }

  /** Cell `(r, c)` of the grid holds exactly the index whose line is `r`
      and whose column is `c`. */
  lemma AtCell(r: nat, c: nat, rows: nat, i: nat)
    requires r < rows
    ensures i == r + Offset(c, rows) <==> LineOf(i, rows) == r && ColumnOf(i, rows) == c
  {
    PositionUnique(r, c, rows);
    Position(i, rows);
  }

  /** A cell list with at most one element holds `i` once exactly when that
      element is `i`. */
  lemma CountCell(idx: nat, present: bool, i: nat)
    ensures Count(if present then [idx] else [], i) == if present && i == idx then 1 else 0
  {
    if present {
      assert [idx][1..] == [];
    }
  }

  /** Line `r` (from column `c` on) holds `i` once if `i` belongs to that
      line and column range, and not at all otherwise. */
  lemma {:induction false} CountRowCells(r: nat, rows: nat, n: nat, c: nat, i: nat)
    requires r < rows
    ensures Count(RowCells(r, rows, n, c), i)
            == if i < n && LineOf(i, rows) == r && c <= ColumnOf(i, rows) < Columns then 1 else 0
    decreases Columns - c
  {
    if c < Columns {
      var idx := r + Offset(c, rows);
      var head: seq<nat> := if idx < n then [idx] else [];
      var rest := RowCells(r, rows, n, c + 1);
      assert RowCells(r, rows, n, c) == head + rest;
      CountAppend(head, rest, i);
      CountCell(idx, idx < n, i);
      CountRowCells(r, rows, n, c + 1, i);
      AtCell(r, c, rows, i);
    } else {
      assert RowCells(r, rows, n, c) == [];
    }
  }

  /** Lines `r0..rows-1` hold `i` once if it lies on one of them. */
  lemma {:induction false} CountLinesFrom(r0: nat, rows: nat, n: nat, i: nat)
    requires rows > 0
    ensures Count(LinesFrom(r0, rows, n), i)
            == if i < n && r0 <= LineOf(i, rows) && ColumnOf(i, rows) < Columns then 1 else 0
    decreases rows - r0
  {
    Position(i, rows);
    if r0 < rows {
      var line := RowCells(r0, rows, n, 0);
      var later := LinesFrom(r0 + 1, rows, n);
      assert LinesFrom(r0, rows, n) == line + later;
      CountAppend(line, later, i);
      CountRowCells(r0, rows, n, 0, i);
      CountLinesFrom(r0 + 1, rows, n, i);
    } else {
      assert LinesFrom(r0, rows, n) == [];
    }
  }

  /** Every index below `n` is printed exactly once and nothing else is. */
  lemma LayoutPrintsEachIndexOnce(n: nat, i: nat)
    ensures Count(Layout(n), i) == if i < n then 1 else 0
  {
    var rows := RowCount(n);
    if n > 0 {
      CountLinesFrom(0, rows, n, i);
      if i < n {
        OffsetIsProduct(Columns, rows);
        ColumnBound(i, rows, Columns);
      }
    }
  }

  /** Index `i` is printed on line `i % rows` in column `i / rows`, so that
      `i == r + c * rows` as the printing loop computes it. */
  lemma LayoutPosition(n: nat, i: nat)
    requires i < n
    ensures var rows := RowCount(n);
            && LineOf(i, rows) < rows && ColumnOf(i, rows) < Columns
            && i == LineOf(i, rows) + ColumnOf(i, rows) * rows
  {
    var rows := RowCount(n);
    Position(i, rows);
    OffsetIsProduct(ColumnOf(i, rows), rows);
    OffsetIsProduct(Columns, rows);
    ColumnBound(i, rows, Columns);
  }
}

=== FILE: keys.dfy ===
/**
 The server's key resolver (`_resolve_key`): turns the configured key name
 into either a named special key or a single literal character. The table of
 named keys comes from the keyboard library at run time, so it is a
 parameter: the set of its lower-case names.
 */
module Keys {
  import opened Wrappers
  import opened Text

  /** What `_resolve_key` hands to the keyboard actuator. */
  datatype KeyHandle = Special(name: string) | Character(ch: char)

  /** The `ValueError` raised for an unknown name; its message quotes the name
      given and lists the valid special names. */
  datatype KeyError = UnknownKey(given: string, valid: set<string>)

  /** `key_name.strip().lower()`. */
  function Normalize(keyName: string): string {
    Lower(Strip(keyName))
  }

  /** The convenience retry: spaces become underscores. */
  function Underscored(name: string): string {
    ReplaceChar(name, ' ', '_')
  }

  /** Resolution order: named key, then single character, then the
      underscore form of the name, otherwise an error. */
  function ResolveKey(keyName: string, special: set<string>): (r: Result<KeyHandle, KeyError>)
    // a named key wins over every other rule
    ensures Normalize(keyName) in special ==> r == Ok(Special(Normalize(keyName)))
    // a special handle is always a name from the table, reached from the input
    ensures r.Ok? && r.value.Special? ==>
              r.value.name in special
              && (r.value.name == Normalize(keyName) || r.value.name == Underscored(Normalize(keyName)))
    // a character handle is exactly the one normalised character given
    ensures r.Ok? && r.value.Character? ==>
              Normalize(keyName) == [r.value.ch] && Normalize(keyName) !in special
    // the error happens exactly when no rule applies, and lists the table
    ensures r.Err? <==>
              && Normalize(keyName) !in special
              && |Normalize(keyName)| != 1
              && Underscored(Normalize(keyName)) !in special
    ensures r.Err? ==> r.error == UnknownKey(keyName, special)
  {
    var normalized := Normalize(keyName);
    if normalized in special then Ok(Special(normalized))
    else if |normalized| == 1 then Ok(Character(normalized[0]))
    else
      var alt := Underscored(normalized);
      if alt in special then Ok(Special(alt))
      else Err(UnknownKey(keyName, special))
  }

  /** Resolution ignores letter case and surrounding whitespace: two names
      that normalise alike resolve alike (the error only quotes its input). */
  lemma ResolveKeyInsensitive(a: string, b: string, special: set<string>)
    requires Normalize(a) == Normalize(b)
    ensures ResolveKey(a, special).Ok? <==> ResolveKey(b, special).Ok?
    ensures ResolveKey(a, special).Ok? ==> ResolveKey(a, special) == ResolveKey(b, special)
  {
  }

  /** `_resolve_key("Caps_Lock")` gives the named key `caps_lock`. */
  lemma ResolveMixedCase(special: set<string>)
    requires "caps_lock" in special
    ensures ResolveKey("Caps_Lock", special) == Ok(Special("caps_lock"))
  {
    StripOfStripped("Caps_Lock");
    assert Lower("Caps_Lock") == "caps_lock";
  }

  /** An unknown multi-character name without spaces is an error. */
  lemma ResolveUnknown(special: set<string>)
    requires "zz" !in special
    ensures ResolveKey("zz", special) == Err(UnknownKey("zz", special))
  {
    StripOfStripped("zz");
    assert Lower("zz") == "zz";
    assert Underscored("zz") == "zz";
  }

  /** A name written with spaces resolves when its underscore form is a
      named key, as long as it is not itself a named key or one character. */
  lemma SpacedNameResolves(keyName: string, special: set<string>)
    requires Normalize(keyName) !in special && |Normalize(keyName)| != 1
    requires Underscored(Normalize(keyName)) in special
    ensures ResolveKey(keyName, special) == Ok(Special(Underscored(Normalize(keyName))))
  {
  }
}

=== FILE: protocol.dfy ===
/**
 The WebSocket control protocol. Client messages are JSON objects
 `{"action": "ptt", "state": "on" | "off"}`; the server answers with
 `{"status": ...}` objects. JSON parsing itself is outside the model: a client
 message arrives already classified as text `json.loads` rejects with
 `JSONDecodeError`, as a frame it fails on with any other exception, as a JSON
 value that is not an object, or as an object with its `action` and `state`
 members.
 */
module Protocol {
  import opened Wrappers

  /** The value `message.get(name)` returns for one member. */
  datatype Field = Missing | Str(s: string) | NonString

  /** A client message after `json.loads`. `JsonDecodeError` is text it rejects
      with `JSONDecodeError`, the one failure the handler catches on the
      spot. `LoadFailure` is a frame it fails on in any other way, such as a
      binary frame that is not UTF-8 (`UnicodeDecodeError`) or nesting too
      deep (`RecursionError`). */
  datatype Wire =
    | JsonDecodeError
    | LoadFailure
    | NotAnObject
    | Object(action: Field, state: Field)

  /** Why a message leaves everything as it was. */
  datatype Ignored = InvalidJson | UnknownAction | NoTransition

  /** The closed set of meanings a client message can have. `Abort` is an
      exception that escapes to the handler's generic `except`, ending the
      connection: a parsed value without `.get` (a list, number, string or
      null), or a frame `json.loads` fails on other than by
      `JSONDecodeError`. */
  datatype Request = TurnOn | TurnOff | Ignore(why: Ignored) | Abort

  /** The server-to-client notices. */
  datatype Status = Connected | PttOn | PttOff

  /** Classifies one client message the way `_handle_client` branches on it. */
  function Decode(w: Wire): (r: Request)
    ensures r == TurnOn <==> w == Object(Str("ptt"), Str("on"))
    ensures r == TurnOff <==> w == Object(Str("ptt"), Str("off"))
    ensures r == Abort <==> w == NotAnObject || w == LoadFailure
    ensures r == Ignore(InvalidJson) <==> w == JsonDecodeError
    ensures r == Ignore(UnknownAction) <==> w.Object? && w.action != Str("ptt")
    ensures r == Ignore(NoTransition) <==>
              w.Object? && w.action == Str("ptt") && w.state != Str("on") && w.state != Str("off")
  {
    match w
    case JsonDecodeError => Ignore(InvalidJson)
    case LoadFailure => Abort
    case NotAnObject => Abort
    case Object(action, state) =>
      if action != Str("ptt") then Ignore(UnknownAction)
      else if state == Str("on") then TurnOn
      else if state == Str("off") then TurnOff
      else Ignore(NoTransition)
  }

  /** The message the web page sends for a button press or release. */
  function PttRequest(on: bool): Wire {
    Object(Str("ptt"), Str(if on then "on" else "off"))
  }

  /** What a client asks for is what the server decodes. */
  lemma DecodePttRequest(on: bool)
    ensures Decode(PttRequest(on)) == (if on then TurnOn else TurnOff)
  {
  }

  /** The `status` value of each notice. */
  function StatusName(st: Status): string {
    match st
    case Connected => "connected"
    case PttOn => "ptt_on"
    case PttOff => "ptt_off"
  }

  /** The text before the quoted status name: `{"status": "`. */
  const PayloadHead: string := "{\"status\": \""

  /** The text after it: `"}`. */
  const PayloadTail: string := "\"}"

  /** `json.dumps({"status": name})` with the default separators: the head,
      the status name and the tail, and nothing else. */
  function Payload(st: Status): (r: string)
    ensures |r| == |PayloadHead| + |StatusName(st)| + |PayloadTail|
    ensures r[..|PayloadHead|] == PayloadHead
    ensures r[|PayloadHead|..|r| - |PayloadTail|] == StatusName(st)
    ensures r[|r| - |PayloadTail|..] == PayloadTail
  {
    PayloadHead + StatusName(st) + PayloadTail
  }

  /** The status a name stands for, if any. */
  function StatusNamed(name: string): (r: Option<Status>)
    ensures r.Some? ==> StatusName(r.value) == name
  {
    if name == "connected" then Some(Connected)
    else if name == "ptt_on" then Some(PttOn)
    else if name == "ptt_off" then Some(PttOff)
    else None
  }

  /** How a client reads a server notice back: the head and the tail must be
      there, and what lies between them must name a status. */
  function StatusOf(payload: string): (r: Option<Status>)
    ensures r.Some? ==> Payload(r.value) == payload
  {
    var n := |payload|;
    if n >= |PayloadHead| + |PayloadTail|
       && payload[..|PayloadHead|] == PayloadHead
       && payload[n - |PayloadTail|..] == PayloadTail
    then
      var r := StatusNamed(payload[|PayloadHead|..n - |PayloadTail|]);
      if r.Some? then
        assert payload == PayloadHead + payload[|PayloadHead|..n - |PayloadTail|] + PayloadTail;
        r
      else None
    else None
  }

  /** Each status name reads back as its status. */
  lemma StatusNamedOfName(st: Status)
    ensures StatusNamed(StatusName(st)) == Some(st)
  {
  }

  /** Every notice the server sends reads back as itself, so a client can
      tell `connected`, `ptt_on` and `ptt_off` apart. */
  lemma PayloadRoundTrip(st: Status)
    ensures StatusOf(Payload(st)) == Some(st)
  {
    StatusNamedOfName(st);
  }
}

=== FILE: server.dfy ===
/**
 The server's push-to-talk control plane as a transition system. One shared
 boolean (`_ptt_state`) and the set of connected clients are driven by network
 messages, client departures, local injection from the desktop GUI and
 `stop_server`. Each event is one atomic step; the logs record what the step
 did to the outside world: key presses and releases handed to the actuator,
 notices sent to clients, and the GUI callbacks fired.
 */
module PttServer {
  import opened Protocol

  type ClientId = nat

  /** A call into the key actuator (`_press_key` / `_release_key`). The
      actuator swallows its own failures, so a call never changes state. */
  datatype Action = Press | Release

  /** One send of the same notice to a set of clients. A broadcast is one
      delivery to every registered client; a greeting is a delivery to one. */
  datatype Delivery = Delivery(to: set<ClientId>, status: Status)

  /** A GUI callback: `on_ptt_change(bool)` or `on_client_change(int)`. */
  datatype Notice = PttChanged(on: bool) | ClientsChanged(count: nat)

  datatype Server = Server(
    ptt: bool,                  // _ptt_state
    clients: set<ClientId>,     // _clients
    loopRunning: bool,          // the WebSocket event loop exists and runs
    actions: seq<Action>,       // actuator calls, oldest first
    sent: seq<Delivery>,        // notices sent to clients, oldest first
    notices: seq<Notice>)       // GUI callbacks fired, oldest first

  datatype Event =
    | Start                                   // the event loop begins running
    | Connect(client: ClientId)               // a WebSocket connection is accepted
    | Receive(client: ClientId, message: Wire)
    | Disconnect(client: ClientId)            // the connection closed or failed
    | LocalSet(on: bool)                      // simulate_ptt(on)
    | Stop                                    // stop_server()

  const Initial: Server := Server(false, {}, false, [], [], [])

  function StatusFor(on: bool): Status {
    if on then PttOn else PttOff
  }

  function ActionFor(on: bool): Action {
    if on then Press else Release
  }

  /** `get_ptt_state()`: whether the key is currently held. What that means
      for the key is stated by `PttProperties.PttStateMatchesKey`: true
      exactly when the last actuator call was a press. */
  function GetPttState(s: Server): (on: bool)
    ensures on <==> s.ptt
  {
    s.ptt
  }

  /** `get_client_count()`: zero exactly when nobody is connected. */
  function GetClientCount(s: Server): (n: nat)
    ensures n == 0 <==> s.clients == {}
    ensures forall c :: c in s.clients ==> n > 0
  {
    |s.clients|
  }

  /** `_broadcast`: nothing when no client is registered, otherwise the same
      payload to every registered client. Send failures are swallowed and the
      client set is left alone. */
  function Broadcast(s: Server, status: Status): (r: Server)
    ensures r.(sent := s.sent) == s
    ensures s.clients == {} ==> r.sent == s.sent
    ensures s.clients != {} ==> r.sent == s.sent + [Delivery(s.clients, status)]
  {
    if s.clients == {} then s
    else s.(sent := s.sent + [Delivery(s.clients, status)])
  }

  /** The gated transition every path uses: when the requested state differs
      from the current one, flip it, call the actuator once, fire the GUI
      callback and (when `announce`) broadcast the new state; otherwise do
      nothing at all. */
  function Transition(s: Server, on: bool, announce: bool): (r: Server)
    ensures r.ptt == on
    ensures r.clients == s.clients && r.loopRunning == s.loopRunning
    ensures on == s.ptt ==> r == s
    ensures on != s.ptt ==> r.actions == s.actions + [ActionFor(on)]
    ensures on != s.ptt ==> r.notices == s.notices + [PttChanged(on)]
    ensures on != s.ptt && announce ==> r.sent == Broadcast(s, StatusFor(on)).sent
    ensures !announce ==> r.sent == s.sent
  {
    if on == s.ptt then s
    else
      var t := s.(ptt := on, actions := s.actions + [ActionFor(on)],
                  notices := s.notices + [PttChanged(on)]);
      if announce then Broadcast(t, StatusFor(on)) else t
  }

  /** A newly accepted connection: register it, report the new count, greet
      it, and tell it about a transmission already in progress. */
  function Greet(s: Server, c: ClientId): (r: Server)
    ensures r.clients == s.clients + {c}
    ensures r.ptt == s.ptt && r.actions == s.actions && r.loopRunning == s.loopRunning
    ensures r.notices == s.notices + [ClientsChanged(|s.clients + {c}|)]
    ensures r.sent == s.sent + [Delivery({c}, Connected)]
                             + (if s.ptt then [Delivery({c}, PttOn)] else [])
  {
    var joined := s.clients + {c};
    s.(clients := joined,
       notices := s.notices + [ClientsChanged(|joined|)],
       sent := s.sent + [Delivery({c}, Connected)] + (if s.ptt then [Delivery({c}, PttOn)] else []))
  }

  /** A connection's handler finishing: discard the client (a no-op when it is
      not registered), report the count, and release the key when nobody is
      left while transmitting. That release is not broadcast. */
  function Leave(s: Server, c: ClientId): (r: Server)
    ensures r.clients == s.clients - {c}
    ensures r.ptt == (s.ptt && s.clients - {c} != {})
    ensures r.sent == s.sent && r.loopRunning == s.loopRunning
    ensures r.actions == s.actions + (if r.ptt != s.ptt then [Release] else [])
    ensures r.notices == s.notices + [ClientsChanged(|s.clients - {c}|)]
                                   + (if r.ptt != s.ptt then [PttChanged(false)] else [])
  {
    var remaining := s.clients - {c};
    var t := s.(clients := remaining, notices := s.notices + [ClientsChanged(|remaining|)]);
    if t.ptt && remaining == {} then Transition(t, false, false) else t
  }

  /** One atomic step of the control plane. */
  function Step(s: Server, e: Event): (r: Server)
    // the three logs only grow
    ensures s.actions <= r.actions && s.sent <= r.sent && s.notices <= r.notices
    // the actuator is called exactly when the state changes, in the new direction
    ensures r.actions == s.actions + (if r.ptt != s.ptt then [ActionFor(r.ptt)] else [])
    // apart from a greeting, something is sent only when the state changes,
    // and then it is one broadcast of the new state
    ensures !e.Connect? && r.ptt == s.ptt ==> r.sent == s.sent
    ensures !e.Connect? && r.ptt != s.ptt ==>
              r.sent == s.sent || r.sent == s.sent + [Delivery(s.clients, StatusFor(r.ptt))]
  {
    match e
    case Start => s.(loopRunning := true)
    case Connect(c) => Greet(s, c)
    case Receive(c, w) =>
      (match Decode(w)
       case TurnOn => Transition(s, true, true)
       case TurnOff => Transition(s, false, true)
       case Ignore(_) => s
       case Abort => Leave(s, c))
    case Disconnect(c) => Leave(s, c)
    case LocalSet(on) => Transition(s, on, s.loopRunning)
    case Stop =>
      var t := Transition(s, false, false);
      t.(clients := {}, loopRunning := false)
  }

  /** The state after a sequence of events. */
  function Run(s: Server, events: seq<Event>): (r: Server)
    // a run only appends to the logs it started with
    ensures s.actions <= r.actions && s.sent <= r.sent && s.notices <= r.notices
    decreases |events|
  {
    if |events| == 0 then s else Run(Step(s, events[0]), events[1..])
  }
}

=== FILE: server_props.dfy ===
/**
 Properties of the push-to-talk control plane: the press/release balance kept
 by every step, the gating of duplicate requests, the safety release when the
 last client leaves, and `stop_server`'s reset.
 */
module PttProperties {
  import opened Protocol
  import opened PttServer

  /** Presses and releases strictly alternate, starting with a press. */
  predicate Alternates(a: seq<Action>) {
    forall k :: 0 <= k < |a| ==> a[k] == ActionFor(k % 2 == 0)
  }

  /** The actuator log agrees with the state: it alternates, and it ends on a
      press exactly when the key is held. */
  predicate Balanced(s: Server) {
    Alternates(s.actions) && (s.ptt <==> |s.actions| % 2 == 1)
  }

  function CountOf(a: seq<Action>, x: Action): nat
    decreases |a|
  {
    if |a| == 0 then 0 else CountOf(a[..|a| - 1], x) + (if a[|a| - 1] == x then 1 else 0)
  }

  /** In an alternating log, presses outnumber releases by the log's parity. */
  lemma {:induction false} AlternatingCounts(a: seq<Action>)
    requires Alternates(a)
    ensures CountOf(a, Press) == CountOf(a, Release) + |a| % 2
    decreases |a|
  {
    if |a| > 0 {
      var p := a[..|a| - 1];
      assert Alternates(p) by {
        forall k | 0 <= k < |p| ensures p[k] == ActionFor(k % 2 == 0) {
          assert p[k] == a[k];
        }
      }
      AlternatingCounts(p);
    }
  }

  /** Every step keeps the actuator log balanced with the state. */
  lemma StepPreservesBalance(s: Server, e: Event)
    requires Balanced(s)
    ensures Balanced(Step(s, e))
  {
    var r := Step(s, e);
    if r.ptt != s.ptt {
      assert r.actions == s.actions + [ActionFor(r.ptt)];
      assert r.actions[|s.actions|] == ActionFor(|s.actions| % 2 == 0);
    }
  }

  /** Every run keeps the actuator log balanced with the state. */
  lemma {:induction false} RunPreservesBalance(s: Server, events: seq<Event>)
    requires Balanced(s)
    ensures Balanced(Run(s, events))
    decreases |events|
  {
    if |events| > 0 {
      StepPreservesBalance(s, events[0]);
      RunPreservesBalance(Step(s, events[0]), events[1..]);
    }
  }

  /** From server start, whatever happens, `#press - #release` is 1 while
      transmitting and 0 otherwise. */
  lemma PressReleaseBalance(events: seq<Event>)
    ensures var s := Run(Initial, events);
            Alternates(s.actions)
            && CountOf(s.actions, Press) - CountOf(s.actions, Release) == (if s.ptt then 1 else 0)
  {
    RunPreservesBalance(Initial, events);
    AlternatingCounts(Run(Initial, events).actions);
  }

  /** `get_ptt_state()` after any events from server start is true exactly
      when the key's last actuator call was a press. */
  lemma PttStateMatchesKey(events: seq<Event>)
    ensures var s := Run(Initial, events);
            GetPttState(s) <==> |s.actions| > 0 && s.actions[|s.actions| - 1] == Press
  {
    RunPreservesBalance(Initial, events);
  }

  /** A connection or a departure reports the count `get_client_count()`
      returns afterwards. */
  lemma ClientCallbackReportsCount(s: Server, e: Event)
    requires e.Connect? || e.Disconnect?
    ensures var r := Step(s, e);
            |r.notices| > |s.notices| && r.notices[|s.notices|] == ClientsChanged(GetClientCount(r))
  {
  }

  /** "on" while off: the state becomes true, the key is pressed once, the
      GUI is told, and `ptt_on` is broadcast to every registered client. */
  lemma TurnOnWhileIdle(s: Server, c: ClientId, w: Wire)
    requires Decode(w) == TurnOn && !s.ptt
    ensures var r := Step(s, Receive(c, w));
            && r.ptt
            && r.clients == s.clients
            && r.actions == s.actions + [Press]
            && r.notices == s.notices + [PttChanged(true)]
            && r.sent == s.sent + (if s.clients == {} then [] else [Delivery(s.clients, PttOn)])
  {
  }

  /** "off" while on: the state becomes false, the key is released once, the
      GUI is told, and `ptt_off` is broadcast. */
  lemma TurnOffWhileTransmitting(s: Server, c: ClientId, w: Wire)
    requires Decode(w) == TurnOff && s.ptt
    ensures var r := Step(s, Receive(c, w));
            && !r.ptt
            && r.clients == s.clients
            && r.actions == s.actions + [Release]
            && r.notices == s.notices + [PttChanged(false)]
            && r.sent == s.sent + (if s.clients == {} then [] else [Delivery(s.clients, PttOff)])
  {
  }

  /** A request for the state already in force changes nothing: no actuator
      call, no broadcast, no callback. */
  lemma DuplicateRequestIsNoOp(s: Server, c: ClientId, w: Wire)
    requires (Decode(w) == TurnOn && s.ptt) || (Decode(w) == TurnOff && !s.ptt)
    ensures Step(s, Receive(c, w)) == s
  {
  }

  /** Text rejected with `JSONDecodeError`, another action, or a `ptt` action without a usable
      `state` leaves everything as it was; the connection stays registered. */
  lemma IgnoredMessagesChangeNothing(s: Server, c: ClientId, w: Wire)
    requires w == JsonDecodeError || (w.Object? && (w.action != Str("ptt")
             || (w.state != Str("on") && w.state != Str("off"))))
    ensures Step(s, Receive(c, w)) == s
  {
  }

  /** A JSON value that is not an object, or a frame `json.loads` fails on
      other than by `JSONDecodeError`, ends its connection's handler, which
      then behaves exactly like a disconnect. */
  lemma NonObjectEndsSession(s: Server, c: ClientId, w: Wire)
    requires w == NotAnObject || w == LoadFailure
    ensures Step(s, Receive(c, w)) == Step(s, Disconnect(c))
    ensures c !in Step(s, Receive(c, w)).clients
  {
  }

  /** `simulate_ptt` applies the same gating; it broadcasts only while the
      event loop runs. */
  lemma LocalSetGating(s: Server, on: bool)
    ensures var r := Step(s, LocalSet(on));
            && r.ptt == on
            && r.clients == s.clients
            && (on == s.ptt ==> r == s)
            && (on != s.ptt ==> r.actions == s.actions + [ActionFor(on)])
            && (on != s.ptt && s.loopRunning && s.clients != {} ==>
                  r.sent == s.sent + [Delivery(s.clients, StatusFor(on))])
            && (!s.loopRunning ==> r.sent == s.sent)
  {
  }

  /** A local request and the same request from a client have the same
      effect while the loop runs. */
  lemma LocalMatchesRemote(s: Server, c: ClientId, on: bool)
    requires s.loopRunning
    ensures Step(s, LocalSet(on)) == Step(s, Receive(c, PttRequest(on)))
  {
  }

  /** A new client is registered, greeted with `connected`, then told
      `ptt_on` exactly when a transmission is in progress. */
  lemma ConnectGreets(s: Server, c: ClientId)
    ensures var r := Step(s, Connect(c));
            && c in r.clients
            && GetClientCount(r) == |s.clients + {c}|
            && r.ptt == s.ptt && r.actions == s.actions
            && |r.sent| == |s.sent| + (if s.ptt then 2 else 1)
            && r.sent[|s.sent|] == Delivery({c}, Connected)
            && (s.ptt <==> (|r.sent| > |s.sent| + 1 && r.sent[|s.sent| + 1] == Delivery({c}, PttOn)))
  {
  }

  /** The last client leaving while transmitting forces one release, without
      a broadcast. */
  lemma LastDepartureReleases(s: Server, c: ClientId)
    requires s.ptt && s.clients - {c} == {}
    ensures var r := Step(s, Disconnect(c));
            && !r.ptt && r.clients == {}
            && r.actions == s.actions + [Release]
            && r.sent == s.sent
  {
  }

  /** A client leaving while others remain does not touch the key, even if it
      was the one that pressed it. */
  lemma DepartureWithOthersKeepsState(s: Server, c: ClientId)
    requires s.clients - {c} != {}
    ensures var r := Step(s, Disconnect(c));
            && r.ptt == s.ptt && r.actions == s.actions && r.sent == s.sent
            && r.clients == s.clients - {c}
  {
  }

  /** A departure of a client that was never registered changes the set by
      nothing but still applies the safety rule. */
  lemma UnknownDeparture(s: Server, c: ClientId)
    requires c !in s.clients
    ensures Step(s, Disconnect(c)).clients == s.clients
    ensures Step(s, Disconnect(c)).ptt == (s.ptt && s.clients != {})
  {
  }

  function Disconnects(cs: seq<ClientId>): (r: seq<Event>)
    ensures |r| == |cs|
    ensures forall k :: 0 <= k < |cs| ==> r[k] == Disconnect(cs[k])
  {
    seq(|cs|, k requires 0 <= k < |cs| => Disconnect(cs[k]))
  }

  /** Departures while idle never call the actuator or send anything. */
  lemma {:induction false} DeparturesWhileIdle(s: Server, cs: seq<ClientId>)
    requires !s.ptt
    ensures var r := Run(s, Disconnects(cs));
            && !r.ptt && r.actions == s.actions && r.sent == s.sent
            && r.clients == s.clients - (set c | c in cs)
    decreases |cs|
  {
    if |cs| > 0 {
      assert Disconnects(cs)[1..] == Disconnects(cs[1..]);
      DeparturesWhileIdle(Step(s, Disconnect(cs[0])), cs[1..]);
    }
  }

  /** Removing every registered client, in any order, while transmitting
      releases the key exactly once and broadcasts nothing. */
  lemma {:induction false} AllDepartReleasesOnce(s: Server, cs: seq<ClientId>)
    requires s.ptt && |cs| > 0
    requires forall c :: c in s.clients ==> c in cs
    ensures var r := Run(s, Disconnects(cs));
            && !r.ptt && r.clients == {}
            && r.actions == s.actions + [Release]
            && r.sent == s.sent
    decreases |cs|
  {
    var t := Step(s, Disconnect(cs[0]));
    assert Disconnects(cs)[1..] == Disconnects(cs[1..]);
    if t.ptt {
      assert |cs| > 1;
      AllDepartReleasesOnce(t, cs[1..]);
    } else {
      assert t.clients == {};
      DeparturesWhileIdle(t, cs[1..]);
    }
  }

  /** After `stop_server` the key is up and no client is registered; the key
      is released only if it was held, and nothing is broadcast. */
  lemma StopResets(s: Server)
    ensures var r := Step(s, Stop);
            && !GetPttState(r) && GetClientCount(r) == 0
            && r.actions == s.actions + (if s.ptt then [Release] else [])
            && r.sent == s.sent
  {
  }

  /** A second `stop_server` does nothing more. */
  lemma StopIdempotent(s: Server)
    ensures Step(Step(s, Stop), Stop) == Step(s, Stop)
  {
  }

  /** Turning the key on locally with nobody connected presses it and sends
      nothing; a client connecting afterwards is told `ptt_on`. */
  lemma LocalOnThenLateJoiner(s: Server, c: ClientId)
    requires !s.ptt && s.clients == {}
    ensures var t := Step(s, LocalSet(true));
            var r := Step(t, Connect(c));
            && t.ptt && t.actions == s.actions + [Press] && t.sent == s.sent
            && r.sent == s.sent + [Delivery({c}, Connected), Delivery({c}, PttOn)]
  {
  }

  /** One client sending a sequence of on/off requests. */
  function Requests(c: ClientId, bs: seq<bool>): (r: seq<Event>)
    ensures |r| == |bs|
    ensures forall k :: 0 <= k < |bs| ==> r[k] == Receive(c, PttRequest(bs[k]))
  {
    seq(|bs|, k requires 0 <= k < |bs| => Receive(c, PttRequest(bs[k])))
  }

  /** How many requests in `bs` differ from the state before them. */
  function Flips(from: bool, bs: seq<bool>): nat
    decreases |bs|
  {
    if |bs| == 0 then 0 else (if bs[0] != from then 1 else 0) + Flips(bs[0], bs[1..])
  }

  /** Consecutive duplicate requests are no-ops: after any sequence of
      requests the state is the last one asked for, and the actuator was
      called once per actual change and never otherwise. */
  lemma {:induction false} RequestsCollapse(s: Server, c: ClientId, bs: seq<bool>)
    ensures var r := Run(s, Requests(c, bs));
            && r.ptt == (if |bs| == 0 then s.ptt else bs[|bs| - 1])
            && r.clients == s.clients
            && |r.actions| == |s.actions| + Flips(s.ptt, bs)
    decreases |bs|
  {
    if |bs| > 0 {
      DecodePttRequest(bs[0]);
      assert Requests(c, bs)[1..] == Requests(c, bs[1..]);
      RequestsCollapse(Step(s, Receive(c, PttRequest(bs[0]))), c, bs[1..]);
    }
  }

  /** The requests on, on, off, off, on, starting idle, end transmitting
      after exactly three actuator calls. */
  lemma RepeatedRequestsScenario(s: Server, c: ClientId)
    requires !s.ptt
    ensures var r := Run(s, Requests(c, [true, true, false, false, true]));
            r.ptt && |r.actions| == |s.actions| + 3
  {
    RequestsCollapse(s, c, [true, true, false, false, true]);
    assert Flips(false, [true, true, false, false, true]) == 3;
  }
}

=== FILE: text.dfy ===
/**
 Models of the few Python string operations the server and the setup wizard
 rely on: `str.strip()`, `str.lower()`, `str.isalpha()`, `str.replace()` for a
 single character, `str(int)` and `int(str)` in base 10.
 */
module Text {
  import opened Wrappers

  /** Python's `str.isspace()`: the characters `strip()` removes by default. */
  predicate IsSpace(c: char) {
    || c == ' '
    || ('\t' <= c <= '\r')
    || ('\U{1C}' <= c <= '\U{1F}')
    || c == '\U{85}' || c == '\U{A0}' || c == '\U{1680}'
    || ('\U{2000}' <= c <= '\U{200A}')
    || c == '\U{2028}' || c == '\U{2029}' || c == '\U{202F}' || c == '\U{205F}' || c == '\U{3000}'
  }

  predicate IsDigit(c: char) {
    '0' <= c <= '9'
  }

  /** `str.isalpha()` on a single character, restricted to ASCII letters. */
  predicate IsAlpha(c: char) {
    ('a' <= c <= 'z') || ('A' <= c <= 'Z')
  }

  /** The characters a string accepted by `int()` may hold once stripped. */
  predicate IsNumeralChar(c: char) {
    IsDigit(c) || c == '+' || c == '-' || c == '_'
  }

  /** True when `s` neither starts nor ends with whitespace. */
  predicate IsStripped(s: string) {
    |s| == 0 || (!IsSpace(s[0]) && !IsSpace(s[|s| - 1]))
  }

  /** The position of the first character at or after `i` that is not
      whitespace, or `|s|` when there is none. */
  function TextStart(s: string, i: nat): (r: nat)
    requires i <= |s|
    ensures i <= r <= |s|
    ensures forall k :: i <= k < r ==> IsSpace(s[k])
    ensures r < |s| ==> !IsSpace(s[r])
    decreases |s| - i
  {
    if i < |s| && IsSpace(s[i]) then TextStart(s, i + 1) else i
  }

  /** The position just after the last character of `s[lo..j]` that is not
      whitespace, or `lo` when there is none. */
  function TextEnd(s: string, lo: nat, j: nat): (r: nat)
    requires lo <= j <= |s|
    ensures lo <= r <= j
    ensures forall k :: r <= k < j ==> IsSpace(s[k])
    ensures r > lo ==> !IsSpace(s[r - 1])
    decreases j
  {
    if j > lo && IsSpace(s[j - 1]) then TextEnd(s, lo, j - 1) else j
  }

  /** Python's `s.strip()`: the slice of `s` that neither starts nor ends
      with whitespace, obtained by removing whitespace only. */
  function Strip(s: string): (r: string)
    ensures IsStripped(r)
    ensures var i := TextStart(s, 0);
      && i + |r| <= |s|
      && r == s[i..i + |r|]
      && (forall k :: 0 <= k < i ==> IsSpace(s[k]))
      && (forall k :: i + |r| <= k < |s| ==> IsSpace(s[k]))
  {
    var i := TextStart(s, 0);
    s[i..TextEnd(s, i, |s|)]
  }

  /** Stripping text that is already stripped changes nothing. */
  lemma StripOfStripped(s: string)
    requires IsStripped(s)
    ensures Strip(s) == s
  {
  }

  /** `Strip` is idempotent. */
  lemma StripIdempotent(s: string)
    ensures Strip(Strip(s)) == Strip(s)
  {
    StripOfStripped(Strip(s));
  }

  /** `str.lower()` on one character, restricted to ASCII letters. */
  function LowerChar(c: char): (r: char)
    ensures IsSpace(r) <==> IsSpace(c)
    ensures IsDigit(r) <==> IsDigit(c)
    ensures IsAlpha(r) <==> IsAlpha(c)
    ensures !('A' <= r <= 'Z')
    ensures 'A' <= c <= 'Z' ==> r == (c as int + 32) as char
    ensures !('A' <= c <= 'Z') ==> r == c
  {
    if 'A' <= c <= 'Z' then (c as int + 32) as char else c
  }

  /** Python's `s.lower()` for ASCII text: same length, each character lowered. */
  function Lower(s: string): (r: string)
    ensures |r| == |s|
    ensures forall k :: 0 <= k < |s| ==> r[k] == LowerChar(s[k])
  {
    seq(|s|, k requires 0 <= k < |s| => LowerChar(s[k]))
  }

  lemma LowerAppend(a: string, b: string)
    ensures Lower(a + b) == Lower(a) + Lower(b)
  {
  }

  lemma {:induction false} LowerTextStart(s: string, i: nat)
    requires i <= |s|
    ensures TextStart(Lower(s), i) == TextStart(s, i)
    decreases |s| - i
  {
    if i < |s| && IsSpace(s[i]) {
      LowerTextStart(s, i + 1);
    }
  }

  lemma {:induction false} LowerTextEnd(s: string, lo: nat, j: nat)
    requires lo <= j <= |s|
    ensures TextEnd(Lower(s), lo, j) == TextEnd(s, lo, j)
    decreases j
  {
    if j > lo && IsSpace(s[j - 1]) {
      LowerTextEnd(s, lo, j - 1);
    }
  }

  /** Lowering and stripping commute, so `s.strip().lower()` (the server and
      `confirm`) and `s.lower().strip()` (the key-choice rules) agree. */
  lemma LowerStripCommute(s: string)
    ensures Lower(Strip(s)) == Strip(Lower(s))
  {
    var i := TextStart(s, 0);
    var j := TextEnd(s, i, |s|);
    LowerTextStart(s, 0);
    LowerTextEnd(s, i, |s|);
    assert Strip(s) == s[i..j];
    assert Strip(Lower(s)) == Lower(s)[i..j];
    LowerSlice(s, i, j);
  }

  lemma LowerSlice(s: string, i: nat, j: nat)
    requires i <= j <= |s|
    ensures Lower(s[i..j]) == Lower(s)[i..j]
  {
  }

  /** `s.replace(from, to)` for single characters. */
  function ReplaceChar(s: string, from: char, to: char): (r: string)
    ensures |r| == |s|
    ensures forall k :: 0 <= k < |s| ==> r[k] == (if s[k] == from then to else s[k])
  {
    seq(|s|, k requires 0 <= k < |s| => if s[k] == from then to else s[k])
  }

  function DigitChar(d: nat): (c: char)
    requires d < 10
    ensures IsDigit(c) && c as int - '0' as int == d
  {
    (d + '0' as int) as char
  }

  /** Python's `str(n)` for a natural number: its decimal digits, no leading zero. */
  function NatToString(n: nat): (r: string)
    ensures |r| > 0
    ensures forall k :: 0 <= k < |r| ==> IsDigit(r[k])
    ensures |r| > 1 ==> r[0] != '0'
    decreases n
  {
    if n < 10 then [DigitChar(n)] else NatToString(n / 10) + [DigitChar(n % 10)]
  }

  /** Python's `str(i)` for an integer: the canonical numeral, an optional
      `-` followed by digits with no leading zero, that denotes `i`. */
  function IntToString(i: int): (r: string)
    ensures |r| > 0 && IsDigit(r[|r| - 1])
    ensures i < 0 <==> r[0] == '-'
    ensures var d := if i < 0 then 1 else 0;
            && |r| > d
            && (forall k :: d <= k < |r| ==> IsDigit(r[k]))
            && (|r| > d + 1 ==> r[d] != '0')
    ensures var d := if i < 0 then 1 else 0;
            DigitsValue(r[d..]) == if i < 0 then -i else i
  {
    var m: nat := if i < 0 then -i else i;
    var digits := NatToString(m);
    NatToStringValue(m);
    if i < 0 then
      var r := "-" + digits;
      assert r[1..] == digits;
      r
    else
      assert digits[0..] == digits;
      digits
  }

  /** An underscore at position `k` of `s` with a digit on either side. */
  predicate Separator(s: string, k: int) {
    0 < k < |s| - 1 && s[k] == '_' && IsDigit(s[k - 1]) && IsDigit(s[k + 1])
  }

  /** A run of decimal digits in which every `_` sits between two digits:
      the body `int()` accepts after an optional sign. */
  predicate DigitRun(s: string) {
    && |s| > 0
    && IsDigit(s[0])
    && IsDigit(s[|s| - 1])
    && forall k :: 0 <= k < |s| ==> IsDigit(s[k]) || Separator(s, k)
  }

  /** The number a digit run denotes, with underscores ignored. */
  function DigitsValue(s: string): nat
    decreases |s|
  {
    if |s| == 0 then 0
    else
      var p := DigitsValue(s[..|s| - 1]);
      var c := s[|s| - 1];
      if IsDigit(c) then 10 * p + (c as int - '0' as int) else p
  }

  /** The optional sign `int()` accepts before the digits. */
  predicate IsSign(c: char) {
    c == '+' || c == '-'
  }

  lemma SignedRunChars(t: string)
    requires |t| > 0 && IsSign(t[0]) && DigitRun(t[1..])
    ensures forall k :: 0 <= k < |t| ==> IsNumeralChar(t[k])
  {
    forall k | 0 <= k < |t|
      ensures IsNumeralChar(t[k])
    {
      if k > 0 {
        assert t[k] == t[1..][k - 1];
      }
    }
  }

  /** `int()` on text that is already stripped: an optional sign, then a
      digit run. */
  function ParseNumeral(t: string): (r: Option<int>)
    ensures r.Some? <==> DigitRun(t) || (|t| > 0 && IsSign(t[0]) && DigitRun(t[1..]))
    ensures DigitRun(t) ==> r == Some(DigitsValue(t))
    ensures |t| > 0 && t[0] == '+' && DigitRun(t[1..]) ==> r == Some(DigitsValue(t[1..]))
    ensures |t| > 0 && t[0] == '-' && DigitRun(t[1..]) ==> r == Some(-(DigitsValue(t[1..]) as int))
    ensures r.Some? ==> |t| > 0 && IsDigit(t[|t| - 1])
    ensures r.Some? ==> forall k :: 0 <= k < |t| ==> IsNumeralChar(t[k])
    ensures |t| > 0 && IsAlpha(t[0]) ==> r.None?
  {
    if |t| > 0 && IsSign(t[0]) then
      if DigitRun(t[1..]) then
        SignedRunChars(t);
        var v: int := DigitsValue(t[1..]);
        Some(if t[0] == '-' then -v else v)
      else None
    else if DigitRun(t) then Some(DigitsValue(t))
    else None
  }

  /** Python's `int(s)` in base 10 on ASCII text that has already been
      through `str.strip()`, as every call site's text has: an optional sign
      and a digit run. `None` stands for the `ValueError` it raises
      otherwise. The strip here is `str.strip()`'s, which makes the result
      for such text the same as `int()`'s own whitespace handling. */
  function ParseInt(s: string): (r: Option<int>)
    ensures var t := Strip(s);
            r.Some? <==> DigitRun(t) || (|t| > 0 && IsSign(t[0]) && DigitRun(t[1..]))
    ensures var t := Strip(s);
            && (DigitRun(t) ==> r == Some(DigitsValue(t)))
            && (|t| > 0 && t[0] == '+' && DigitRun(t[1..]) ==> r == Some(DigitsValue(t[1..])))
            && (|t| > 0 && t[0] == '-' && DigitRun(t[1..]) ==> r == Some(-(DigitsValue(t[1..]) as int)))
    ensures r.Some? ==> |Strip(s)| > 0 && IsDigit(Strip(s)[|Strip(s)| - 1])
    ensures r.Some? ==> forall k :: 0 <= k < |Strip(s)| ==> IsNumeralChar(Strip(s)[k])
    ensures |Strip(s)| > 0 && IsAlpha(Strip(s)[0]) ==> r.None?
  {
    ParseNumeral(Strip(s))
  }

  /** Leading zeros, a plus sign and single underscores between digits are
      accepted; a doubled or leading underscore is refused. */
  lemma ParseExamples()
    ensures ParseNumeral("0080") == Some(80)
    ensures ParseNumeral("+80") == Some(80)
    ensures ParseNumeral("8_080") == Some(8080)
    ensures ParseNumeral("8__080") == None
    ensures ParseNumeral("_80") == None
  {
    assert DigitRun("0080");
    assert DigitsValue("0080") == 80 by {
      assert "0080"[..3] == "008" && "008"[..2] == "00" && "00"[..1] == "0" && "0"[..0] == "";
    }
    assert "+80"[1..] == "80";
    assert DigitsValue("80") == 80 by {
      assert "80"[..1] == "8" && "8"[..0] == "";
    }
    assert Separator("8_080", 1);
    assert DigitRun("8_080");
    assert DigitsValue("8_080") == 8080 by {
      assert "8_080"[..4] == "8_08" && "8_08"[..3] == "8_0" && "8_0"[..2] == "8_";
      assert "8_"[..1] == "8" && "8"[..0] == "";
    }
    assert !IsDigit("8__080"[2]) && !Separator("8__080", 2);
    assert !IsDigit("_80"[0]);
  }

  lemma {:induction false} NatToStringValue(n: nat)
    ensures DigitRun(NatToString(n))
    ensures DigitsValue(NatToString(n)) == n
    decreases n
  {
    var s := NatToString(n);
    if n >= 10 {
      NatToStringValue(n / 10);
      assert s[..|s| - 1] == NatToString(n / 10);
    }
  }

  lemma ParseUnsigned(n: nat)
    ensures ParseNumeral(NatToString(n)) == Some(n)
  {
    var s := NatToString(n);
    NatToStringValue(n);
    assert IsDigit(s[0]);
  }

  lemma ParseNegative(n: nat)
    ensures ParseNumeral("-" + NatToString(n)) == Some(-(n as int))
  {
    var s := "-" + NatToString(n);
    NatToStringValue(n);
    assert s[1..] == NatToString(n);
  }

  /** `int(str(i)) == i`: reading back a printed integer gives the integer. */
  lemma ParseIntOfIntToString(i: int)
    ensures ParseInt(IntToString(i)) == Some(i)
  {
    var s := IntToString(i);
    assert IsStripped(s) by {
      assert s[0] == '-' || IsDigit(s[0]);
    }
    StripOfStripped(s);
    if i < 0 {
      ParseNegative(-i);
    } else {
      ParseUnsigned(i);
    }
  }
}

=== FILE: wizard.dfy ===
/**
 The decision rules of the interactive setup wizard: colour wrapping, the
 prompt and yes/no helpers, which key choices it accepts, and which port
 numbers it accepts. Reading from the terminal is modelled by passing the
 typed lines in; printing, subprocesses and OS probing are outside the model.
 */
module Wizard {
  import opened Wrappers
  import opened Text

  const Escape: char := '\U{1B}'

  /** `"\033[" + code + "m"`, the colour-on sequence. */
  function ColourOn(code: string): string {
    [Escape, '['] + code + "m"
  }

  /** `"\033[0m"`, the reset sequence. */
  const ColourOff: string := [Escape, '[', '0', 'm']

  /** `_c(code, text)`: the text itself when colour is off, otherwise the
      text between the colour-on and the reset sequence. */
  function Paint(code: string, text: string, useColour: bool): (r: string)
    ensures !useColour ==> r == text
    ensures useColour ==> |r| == |text| + |code| + 7
    ensures useColour ==> r[..|code| + 3] == ColourOn(code) && r[|r| - 4..] == ColourOff
    ensures useColour ==> r[|code| + 3..|r| - 4] == text
  {
    if useColour then ColourOn(code) + text + ColourOff else text
  }

  /** Removes one colour wrapping, if `painted` carries it. */
  function Unpaint(code: string, painted: string): Option<string> {
    var on := ColourOn(code);
    if |painted| >= |on| + |ColourOff|
       && painted[..|on|] == on && painted[|painted| - |ColourOff|..] == ColourOff
    then Some(painted[|on|..|painted| - |ColourOff|])
    else None
  }

  /** Colour wrapping loses nothing: the original text can be read back. */
  lemma PaintRoundTrip(code: string, text: string)
    ensures Unpaint(code, Paint(code, text, true)) == Some(text)
  {
    var on := ColourOn(code);
    var p := Paint(code, text, true);
    assert p == on + text + ColourOff;
    assert p[|on|..|p| - |ColourOff|] == text;
  }

  /** `prompt(msg, default)` given the line typed: the stripped line, or the
      default (already rendered by `str`) when the line is blank. */
  function Prompt(raw: string, default: Option<string>): (r: string)
    ensures default.Some? && Strip(raw) == [] ==> r == default.value
    ensures default.None? || Strip(raw) != [] ==> r == Strip(raw) && r == Strip(r)
  {
    var line := Strip(raw);
    StripIdempotent(raw);
    if default.Some? && line == [] then default.value else line
  }

  /** A prompt never yields surrounding whitespace unless its default has it. */
  lemma PromptIsStripped(raw: string, default: Option<string>)
    requires default.Some? ==> IsStripped(default.value)
    ensures IsStripped(Prompt(raw, default))
  {
  }

  /** `confirm(msg, default_yes)` given the line typed. */
  function Confirm(raw: string, defaultYes: bool): (r: bool)
    ensures Strip(raw) == [] ==> r == defaultYes
    ensures Strip(raw) != [] ==> (r <==> Lower(Strip(raw)) == "y" || Lower(Strip(raw)) == "yes")
  {
    var answer := Lower(Strip(raw));
    if answer == [] then defaultYes else answer == "y" || answer == "yes"
  }

  /** Confirmation ignores case and surrounding whitespace; a non-blank
      answer decides regardless of the default. */
  lemma ConfirmInsensitive(a: string, b: string, defaultYes: bool)
    requires Lower(Strip(a)) == Lower(Strip(b))
    ensures Confirm(a, defaultYes) == Confirm(b, defaultYes)
    ensures Strip(a) != [] ==> Confirm(a, true) == Confirm(a, false)
  {
  }

  /** The special keys of `SUPPORTED_KEYS`. */
  const SpecialKeys: map<string, string> := map[
    "caps_lock" := "Caps Lock", "scroll_lock" := "Scroll Lock", "pause" := "Pause / Break",
    "insert" := "Insert", "home" := "Home", "end" := "End",
    "page_up" := "Page Up", "page_down" := "Page Down", "num_lock" := "Num Lock",
    "f13" := "F13", "f14" := "F14", "f15" := "F15", "f16" := "F16",
    "f17" := "F17", "f18" := "F18", "f19" := "F19", "f20" := "F20"
  ]

  /** The function keys of `SUPPORTED_KEYS`. */
  const FunctionKeys: map<string, string> := map[
    "f1" := "F1", "f2" := "F2", "f3" := "F3", "f4" := "F4",
    "f5" := "F5", "f6" := "F6", "f7" := "F7", "f8" := "F8",
    "f9" := "F9", "f10" := "F10", "f11" := "F11", "f12" := "F12"
  ]

  /** The modifier keys of `SUPPORTED_KEYS`. */
  const ModifierKeys: map<string, string> := map[
    "ctrl_l" := "Left Ctrl", "ctrl_r" := "Right Ctrl",
    "alt_l" := "Left Alt", "alt_r" := "Right Alt",
    "shift_l" := "Left Shift", "shift_r" := "Right Shift"
  ]

  /** `SUPPORTED_KEYS`: key name to description. */
  const SupportedKeys: map<string, string> := SpecialKeys + FunctionKeys + ModifierKeys

  /** `QUICK_OPTIONS`: the numbered menu, key name and description. */
  const QuickOptions: seq<(string, string)> := [
    ("caps_lock", "Caps Lock (recommended, rarely used in sims)"),
    ("scroll_lock", "Scroll Lock"),
    ("pause", "Pause / Break"),
    ("f13", "F13 (if your keyboard has it)"),
    ("insert", "Insert")
  ]

  /** The menu number that asks for a custom key name. */
  const CustomOption: int := |QuickOptions| + 1

  /** A key the wizard may write to the configuration. */
  predicate ValidPttKey(k: string) {
    k in SupportedKeys || (|k| == 1 && IsAlpha(k[0]))
  }

  /** Every supported key name begins with a letter. */
  lemma SupportedKeysStartWithLetter(k: string)
    requires k in SupportedKeys
    ensures |k| > 0 && IsAlpha(k[0])
  {
    if k in SpecialKeys {
      SpecialKeysStartWithLetter(k);
    } else if k in FunctionKeys {
      FunctionKeysStartWithLetter(k);
    } else {
      ModifierKeysStartWithLetter(k);
    }
  }

  lemma SpecialKeysStartWithLetter(k: string)
    requires k in SpecialKeys
    ensures |k| > 0 && 'a' <= k[0] <= 'z'
  {
  }

  lemma FunctionKeysStartWithLetter(k: string)
    requires k in FunctionKeys
    ensures |k| > 0 && k[0] == 'f'
  {
  }

  lemma ModifierKeysStartWithLetter(k: string)
    requires k in ModifierKeys
    ensures |k| > 0 && 'a' <= k[0] <= 'z'
  {
  }

  /** The acceptance rule for a typed key name: lowered and stripped, it must
      be a supported key or a single letter, and that form is returned. */
  function AcceptKeyName(text: string): (r: Option<string>)
    ensures r.Some? <==> ValidPttKey(Strip(Lower(text)))
    ensures r.Some? ==> r.value == Strip(Lower(text))
  {
    var k := Strip(Lower(text));
    if k in SupportedKeys then Some(k)
    else if |k| == 1 && IsAlpha(k[0]) then Some(k)
    else None
  }

  /** Every menu entry names a supported key. */
  lemma QuickOptionSupported(i: int)
    requires 0 <= i < |QuickOptions|
    ensures QuickOptions[i].0 in SupportedKeys
  {
  }

  /** What one answer to "Pick a number or type a key name" leads to. */
  datatype Pick = Picked(key: string) | AskCustom | Retry

  /** One pass of `configure_ptt_key`'s loop, given the prompt's result. */
  function ChooseKey(choice: string): (r: Pick)
    ensures r.Picked? ==> ValidPttKey(r.key)
    ensures var n := ParseInt(choice);
            n.Some? && 1 <= n.value <= |QuickOptions| ==> r == Picked(QuickOptions[n.value - 1].0)
    ensures ParseInt(choice) == Some(CustomOption) ==> r == AskCustom
    ensures var n := ParseInt(choice);
            (n.None? || !(1 <= n.value <= CustomOption)) ==>
              (r.Picked? <==> AcceptKeyName(choice).Some?)
              && (r.Picked? ==> r.key == AcceptKeyName(choice).value)
              && (r.Picked? || r.Retry?)
  {
    var n := ParseInt(choice);
    if n.Some? && 1 <= n.value <= |QuickOptions| then
      QuickOptionSupported(n.value - 1);
      Picked(QuickOptions[n.value - 1].0)
    else if n == Some(CustomOption) then AskCustom
    else
      match AcceptKeyName(choice)
      case Some(k) => Picked(k)
      case None => Retry
  }

  /** A number outside the menu is never taken as a key name, so "0" and
      "7" are rejected and asked again. */
  lemma NumberOutsideMenuRejected(choice: string)
    requires ParseInt(choice).Some? && !(1 <= ParseInt(choice).value <= CustomOption)
    ensures ChooseKey(choice) == Retry
  {
    var k := Strip(Lower(choice));
    LowerStripCommute(choice);
    var t := Strip(choice);
    assert k == Lower(t);
    assert IsNumeralChar(t[0]);
    assert !IsAlpha(k[0]);
    if k in SupportedKeys {
      SupportedKeysStartWithLetter(k);
    }
  }

  /** What one round of `configure_ptt_key`'s loop does: settle on a key,
      start the next round at line `next`, or stop because the input ended
      while the custom key name was being asked for. */
  datatype Round = Settled(key: string) | Again(next: nat) | Unfinished

  /** The round that starts at line `i`: the menu question, and the custom
      key question on the following line when the answer is the custom
      option. */
  function RoundAt(inputs: seq<string>, i: nat): (r: Round)
    requires i < |inputs|
    ensures r.Settled? ==> ValidPttKey(r.key)
    ensures r.Again? ==> i < r.next <= |inputs|
    ensures var pick := ChooseKey(Prompt(inputs[i], Some("1")));
            && (pick.Picked? ==> r == Settled(pick.key))
            && (pick.Retry? ==> r == Again(i + 1))
            && (pick.AskCustom? && i + 1 == |inputs| ==> r == Unfinished)
            && (pick.AskCustom? && i + 1 < |inputs| ==>
                  var custom := AcceptKeyName(Prompt(inputs[i + 1], None));
                  r == if custom.Some? then Settled(custom.value) else Again(i + 2))
  {
    match ChooseKey(Prompt(inputs[i], Some("1")))
    case Picked(k) => Settled(k)
    case Retry => Again(i + 1)
    case AskCustom =>
      if i + 1 == |inputs| then Unfinished
      else
        match AcceptKeyName(Prompt(inputs[i + 1], None))
        case Some(k) => Settled(k)
        case None => Again(i + 2)
  }

  /** The round that would start at each line. */
  function AllRounds(inputs: seq<string>): (rounds: seq<Round>)
    ensures |rounds| == |inputs|
    ensures forall i :: 0 <= i < |inputs| ==> rounds[i] == RoundAt(inputs, i)
  {
    seq(|inputs|, i requires 0 <= i < |inputs| => RoundAt(inputs, i))
  }

  /** `starts` lists the first lines of consecutive rounds from line 0 on,
      and every round but the last was asked again. */
  predicate Chain(rounds: seq<Round>, starts: seq<nat>) {
    && |starts| > 0
    && starts[0] == 0
    && forall j :: 0 <= j < |starts| - 1 ==>
         starts[j] < |rounds| && rounds[starts[j]] == Again(starts[j + 1])
  }

  /** The same, over the lines the user types. */
  predicate RoundChain(inputs: seq<string>, starts: seq<nat>) {
    Chain(AllRounds(inputs), starts)
  }

  /** A round that is asked again extends the chain by its successor. */
  lemma ChainExtend(rounds: seq<Round>, starts: seq<nat>, next: nat)
    requires Chain(rounds, starts)
    requires starts[|starts| - 1] < |rounds|
    requires rounds[starts[|starts| - 1]] == Again(next)
    ensures Chain(rounds, starts + [next])
  {
    var t := starts + [next];
    forall j | 0 <= j < |t| - 1
      ensures t[j] < |rounds| && rounds[t[j]] == Again(t[j + 1])
    {
      if j < |starts| - 1 {
        assert t[j] == starts[j] && t[j + 1] == starts[j + 1];
      }
    }
  }

  /** Every round that is asked again hands over to a later line. */
  predicate Forward(rounds: seq<Round>) {
    forall i :: 0 <= i < |rounds| && rounds[i].Again? ==> i < rounds[i].next <= |rounds|
  }

  /** Follows the rounds from line 0 until one settles or is unfinished, or
      the lines run out. */
  method FollowRounds(rounds: seq<Round>) returns (key: Option<string>, starts: seq<nat>)
    requires Forward(rounds)
    ensures Chain(rounds, starts)
    ensures var at := starts[|starts| - 1];
            && (key.Some? ==> at < |rounds| && rounds[at] == Settled(key.value))
            && (key.None? ==> at == |rounds| || (at < |rounds| && rounds[at] == Unfinished))
  {
    var i: nat := 0;
    starts := [0];
    while i < |rounds|
      invariant i <= |rounds|
      invariant Chain(rounds, starts) && starts[|starts| - 1] == i
      decreases |rounds| - i
    {
      var round := rounds[i];
      if round.Settled? {
        return Some(round.key), starts;
      } else if round.Unfinished? {
        return None, starts;
      }
      ChainExtend(rounds, starts, round.next);
      starts := starts + [round.next];
      i := round.next;
    }
    key := None;
  }

  /** The whole key dialogue over the lines the user types. It returns the
      key it settles on (or `None` when the input ends first) and the first
      line of every round it went through: each earlier round was asked
      again, and the last round decides. */
  method KeyDialog(inputs: seq<string>) returns (key: Option<string>, starts: seq<nat>)
    ensures RoundChain(inputs, starts)
    ensures var at := starts[|starts| - 1];
            && (key.Some? ==> at < |inputs| && RoundAt(inputs, at) == Settled(key.value))
            && (key.None? ==> at == |inputs| || (at < |inputs| && RoundAt(inputs, at) == Unfinished))
    ensures key.Some? ==> ValidPttKey(key.value)
  {
    var rounds := AllRounds(inputs);
    key, starts := FollowRounds(rounds);
  }

  /** Pressing Enter at the first question picks the recommended key, so the
      dialogue settles in its first round. */
  lemma EnterPicksCapsLock(inputs: seq<string>)
    requires |inputs| > 0 && Strip(inputs[0]) == []
    ensures RoundAt(inputs, 0) == Settled("caps_lock")
  {
    ParseIntOfIntToString(1);
    assert IntToString(1) == "1";
    assert Prompt(inputs[0], Some("1")) == "1";
    assert ParseInt("1") == Some(1);
    assert ChooseKey("1") == Picked("caps_lock");
  }

  const DefaultHttpPort: int := 8080
  const DefaultWsPort: int := 8765

  predicate InPortRange(p: int) {
    1024 <= p <= 65535
  }

  /** Why a typed port is refused and asked again. */
  datatype PortProblem = NotANumber | OutOfRange | SameAsHttp

  /** The number typed at a port prompt, the default when the line is
      blank, or `None` when `int()` would raise. */
  function PortAnswer(raw: string, default: int): Option<int> {
    var line := Strip(raw);
    if line == [] then Some(default) else ParseInt(line)
  }

  /** `PortAnswer` is `int(prompt(msg, default=port))`: the prompt shows
      `str(port)` and a blank line hands that text to `int()`. */
  lemma PortAnswerIsIntOfPrompt(raw: string, default: int)
    ensures PortAnswer(raw, default) == ParseInt(Prompt(raw, Some(IntToString(default))))
  {
    ParseIntOfIntToString(default);
    StripIdempotent(raw);
  }

  /** One answer to "HTTP port". */
  function CheckHttpPort(raw: string): (r: Result<int, PortProblem>)
    ensures var n := PortAnswer(raw, DefaultHttpPort);
            && (r.Ok? <==> n.Some? && InPortRange(n.value))
            && (r.Ok? ==> r.value == n.value)
            && (r == Err(NotANumber) <==> n.None?)
            && (r == Err(OutOfRange) <==> n.Some? && !InPortRange(n.value))
  {
    match PortAnswer(raw, DefaultHttpPort)
    case None => Err(NotANumber)
    case Some(p) => if InPortRange(p) then Ok(p) else Err(OutOfRange)
  }

  /** One answer to "WebSocket port", once the HTTP port is fixed. */
  function CheckWsPort(raw: string, httpPort: int): (r: Result<int, PortProblem>)
    ensures var n := PortAnswer(raw, DefaultWsPort);
            && (r.Ok? <==> n.Some? && InPortRange(n.value) && n.value != httpPort)
            && (r.Ok? ==> r.value == n.value)
            && (r == Err(NotANumber) <==> n.None?)
            && (r == Err(OutOfRange) <==> n.Some? && !InPortRange(n.value))
            && (r == Err(SameAsHttp) <==> n.Some? && InPortRange(n.value) && n.value == httpPort)
  {
    match PortAnswer(raw, DefaultWsPort)
    case None => Err(NotANumber)
    case Some(p) =>
      if !InPortRange(p) then Err(OutOfRange)
      else if p == httpPort then Err(SameAsHttp)
      else Ok(p)
  }

  /** Pressing Enter twice accepts 8080 and 8765; Enter for the WebSocket
      port is refused when the HTTP port was set to 8765. */
  lemma BlankAnswersTakeDefaults(raw: string)
    requires Strip(raw) == []
    ensures CheckHttpPort(raw) == Ok(8080)
    ensures CheckWsPort(raw, 8080) == Ok(8765)
    ensures CheckWsPort(raw, 8765) == Err(SameAsHttp)
  {
  }

  predicate HttpRefused(raw: string) {
    CheckHttpPort(raw).Err?
  }

  predicate WsRefused(raw: string, httpPort: int) {
    CheckWsPort(raw, httpPort).Err?
  }

  /** One of `configure_ports`'s loops: the position of the first accepted
      answer at or after `from`, or the end of the answers. */
  method FirstAccepted(answers: seq<Result<int, PortProblem>>, from: nat) returns (i: nat)
    requires from <= |answers|
    ensures from <= i <= |answers|
    ensures i < |answers| ==> answers[i].Ok?
    ensures forall k :: from <= k < i ==> answers[k].Err?
  {
    i := from;
    while i < |answers| && answers[i].Err?
      invariant from <= i <= |answers|
      invariant forall k :: from <= k < i ==> answers[k].Err?
    {
      i := i + 1;
    }
  }

  /** `configure_ports` over the lines the user types: the first acceptable
      HTTP port, then the first acceptable WebSocket port after it. The
      positions of the accepted lines are returned with the ports. */
  method ConfigurePorts(inputs: seq<string>) returns (ports: Option<(int, int)>, httpAt: nat, wsAt: nat)
    ensures ports.Some? ==>
              && InPortRange(ports.value.0) && InPortRange(ports.value.1)
              && ports.value.0 != ports.value.1
    ensures httpAt <= |inputs|
    ensures forall k :: 0 <= k < httpAt ==> HttpRefused(inputs[k])
    ensures ports.Some? ==>
              && httpAt < wsAt < |inputs|
              && CheckHttpPort(inputs[httpAt]) == Ok(ports.value.0)
              && CheckWsPort(inputs[wsAt], ports.value.0) == Ok(ports.value.1)
              && (forall k :: httpAt < k < wsAt ==> WsRefused(inputs[k], ports.value.0))
    ensures ports.None? ==>
              httpAt == |inputs|
              || (&& CheckHttpPort(inputs[httpAt]).Ok?
                  && forall k :: httpAt < k < |inputs| ==>
                       WsRefused(inputs[k], CheckHttpPort(inputs[httpAt]).value))
  {
    var httpAnswers := seq(|inputs|, k requires 0 <= k < |inputs| => CheckHttpPort(inputs[k]));
    httpAt := FirstAccepted(httpAnswers, 0);
    forall k | 0 <= k < httpAt
      ensures HttpRefused(inputs[k])
    {
      assert httpAnswers[k].Err?;
    }
    if httpAt == |inputs| {
      return None, httpAt, httpAt;
    }
    var http := httpAnswers[httpAt].value;
    assert CheckHttpPort(inputs[httpAt]) == Ok(http);
    var wsAnswers := seq(|inputs|, k requires 0 <= k < |inputs| => CheckWsPort(inputs[k], http));
    wsAt := FirstAccepted(wsAnswers, httpAt + 1);
    forall k | httpAt < k < wsAt
      ensures WsRefused(inputs[k], http)
    {
      assert wsAnswers[k].Err?;
    }
    if wsAt == |inputs| {
      return None, httpAt, wsAt;
    }
    assert CheckWsPort(inputs[wsAt], http) == wsAnswers[wsAt];
    ports := Some((http, wsAnswers[wsAt].value));
  }
}

=== FILE: wrappers.dfy ===
/** Failure-carrying values used where the Python code returns None or raises. */
module Wrappers {

  /** A value that may be missing (Python's `None`). */
  datatype Option<+T> = None | Some(value: T)

  /** Either a value or the error the Python code would raise. */
  datatype Result<+T, +E> = Ok(value: T) | Err(error: E)
}
